=== FILE: README.md ===
# guzzle-client middlewares, modelled in Dafny

This project models four middlewares of the Bacart Guzzle client, which wrap Guzzle's handler stack. The model uses immutable
request, response and header values (`Http`), and each middleware is a pure function:

- **ResponseCacheMiddleware** (`ResponseCache`). One call of the closure is one step,
  `Handle(config, request, options, store, next, saveResult)`. It handles the per-call
  `cache` option, derives the key as `guzzle_cache|` + md5 of PHP `serialize()` over body,
  headers, method and URI (`PhpSerialize`), and serves a hit by rebuilding the response
  from the five stored fields. On a miss it calls the next handler and saves the result.
  It adds the `X-Guzzle-Cache: HIT/MISS` debug marker and absorbs an invalid TTL. The PSR-6
  pool is a map from key to fresh entry, `cache->save()` is the `saveResult` oracle, and
  md5 is the `digest` function in the configuration.
- **RequestRetryMiddleware** (`RequestRetry`). `Decide` is the decider over retry count,
  optional response and transfer error, together with its warning log event. `RunFrom`
  plays Guzzle's retry loop, incrementing the attempt counter per retry.
- **GuzzleMessageFormatter** (`MessageFormatter`). The constructor builds the
  credential → `******` table and picks the CLF or DEBUG template. `Format` runs the
  `strtr` pass over the rendered line. `Strtr` is PHP's array form of `strtr`: scan left
  to right, replace the longest matching key, and never rescan the replacement.
- **UserAgentMiddleware** (`UserAgent`). It picks a pool element (`array_rand` becomes an
  index oracle `pick < |pool|`) and applies PSR-7 `withHeader('User-Agent', …)`. The
  closure is modelled as written (`InvokeAsWritten`) and as evidently intended (`Invoke`).

Behaviour of the code worth noting:
- Retries happen only for status **> 500**. The code compares with `>`, so 500 itself is
  not retried.
- Exceptions from the pool's `getItem` (ResponseCacheMiddleware.php:81) and `save` (:171)
  are outside any `try`, so they propagate. Caching is not fail-open for them.
- A `save()` returning false is not logged.
- An empty user-agent pool is not rejected at construction. A non-empty pool is a
  precondition of each call.

## Model

| member | source | states |
|---|---|---|
| `ResponseCache.CacheEnabled` | src/Middleware/ResponseCacheMiddleware.php:72-76 | a missing or null `cache` option means caching is on; otherwise PHP truthiness of the value decides |
| `ResponseCache.Handle` | src/Middleware/ResponseCacheMiddleware.php:69-116 | the `cache` key never reaches the next handler; the store only gains or replaces the entry under this request's key; without a logger nothing is logged |
| `ResponseCache.BypassPassesThrough` | src/Middleware/ResponseCacheMiddleware.php:72-78 | a falsy `cache` option: the next handler is called once with the option removed, its outcome is returned as is, and the store and log are untouched |
| `ResponseCache.HitServesStoredEntry` | src/Middleware/ResponseCacheMiddleware.php:93-114 | a hit never calls the next handler, logs the info event when a logger is present, and returns the response rebuilt from the entry: in debug mode with `X-Guzzle-Cache: HIT` set to exactly that value, otherwise exactly the rebuilt response |
| `ResponseCache.MissFailureNotCached` | src/Middleware/ResponseCacheMiddleware.php:83-91 | a failed inner outcome on a miss is passed on unchanged, nothing is stored and nothing is logged |
| `ResponseCache.MissResponseSaved` | src/Middleware/ResponseCacheMiddleware.php:83-91 | a response on a miss is stored (fields taken before any marker) under the lookup key only when the TTL is accepted and the pool saves it; the MISS marker is added only then and only in debug mode; with a logger, a successful save logs the "saved to cache" info event with the URI, an invalid TTL logs one error, and a declined save logs nothing |
| `ResponseCache.SaveToCache` | src/Middleware/ResponseCacheMiddleware.php:142-180 | an invalid TTL is caught, logs one error and reports false with the store unchanged; otherwise the pool's answer is returned, the entry lands under the recomputed key, and an info event is logged on success |
| `ResponseCache.InvalidTtlAbsorbed` | src/Middleware/ResponseCacheMiddleware.php:148-169 | an error while building the cache item leaves the request successful: the inner response is returned untouched, nothing is stored, and one error event is logged when a logger is present |
| `ResponseCache.AddDebugHeader` | src/Middleware/ResponseCacheMiddleware.php:188-203 | debug off: the identity; debug on: the marker header holds exactly the given value, and nothing else about the response changes |
| `ResponseCache.CacheKey` | src/Middleware/ResponseCacheMiddleware.php:123-134 | every key starts with `guzzle_cache|`; `CacheKeyIdentifiesRequest` and `PhpSerialize.KeyFieldsInjective` state which requests share a key |
| `ResponseCache.CacheKeyIdentifiesRequest` | src/Middleware/ResponseCacheMiddleware.php:123-134 | requests equal in body, headers, method and URI get equal keys; with a collision-free digest, only those do |
| `ResponseCache.MissThenHitRoundTrip` | src/Middleware/ResponseCacheMiddleware.php:99-107 | a well-formed response saved on a miss is served to a later request with the same key fields with the same status, headers, body, version and reason (apart from the marker), without calling the next handler |
| `ResponseCache.EmptyReasonComesBackAsPhrase` | src/Middleware/ResponseCacheMiddleware.php:101-107 | rebuilding an entry with an empty reason for a status with a standard phrase yields that phrase, so the round trip needs a well-formed response |
| `PhpSerialize.KeyFieldsInjective` | src/Middleware/ResponseCacheMiddleware.php:128-133 | the serialized key pre-image is equal exactly when body, headers, method and URI are equal |
| `Http.NewResponse` | src/Middleware/ResponseCacheMiddleware.php:101-107 | Guzzle's response constructor (headers merged by case-insensitive name, an empty reason replaced by the standard phrase); `NewResponseRoundTrip` and `ResponseCache.EmptyReasonComesBackAsPhrase` state what it preserves and what it changes |
| `Http.NewResponseRoundTrip` | src/Middleware/ResponseCacheMiddleware.php:101-107 | the response constructor applied to the five fields of a well-formed response gives that response back |
| `Http.WithHeader` | src/Middleware/UserAgentMiddleware.php:28-31 | PSR-7 `withHeader`: drop every entry under the name in any letter case, then add the new entry; `WithHeaderGet`, `WithHeaderShape` and `WithHeaderNormalized` state its lookups, layout and normalisation |
| `Http.WithHeaderGet` | src/Middleware/ResponseCacheMiddleware.php:194 | after `withHeader`, the name (in any case) yields exactly the new values and every other name yields its old values |
| `Http.WithHeaderShape` | src/Middleware/UserAgentMiddleware.php:28-31 | `withHeader` leaves one entry under the name, last, and keeps all other entries in order |
| `Http.WithHeaderNormalized` | src/Middleware/UserAgentMiddleware.php:28-31 | `withHeader` keeps one entry per case-insensitive name |
| `RequestRetry.DefaultConfig` | src/Middleware/RequestRetryMiddleware.php:27-33 | the default `maxRetries` is 2 |
| `RequestRetry.Decide` | src/Middleware/RequestRetryMiddleware.php:51-77 | no retry once `retries >= maxRetries`; within budget a connect failure always retries; otherwise retry iff status > 500 (so 2xx, 4xx and 500 do not); no response counts as status 0; one "Request retry (n)" warning with status, URI and method exactly when retrying with a logger |
| `RequestRetry.DecideAsWritten` | src/Middleware/RequestRetryMiddleware.php:59-61 | with the undeclared constant, every call within budget and without a connect failure raises an error; out of budget or on a connect failure the constant is never evaluated and the result is exactly `Decide`'s decision |
| `RequestRetry.AsWrittenFailsOnServerError` | src/Middleware/RequestRetryMiddleware.php:61 | a first attempt answered with 503 makes the code as written fail, while the corrected decider retries |
| `RequestRetry.RunFrom` | src/Middleware/RequestRetryMiddleware.php:38-41 | the retry loop makes between 1 and (remaining budget + 1) attempts, retries every attempt before the last and ends with the first outcome the decider declines, and with a logger logs exactly one event per retry, the i-th being the "Request retry (n)" warning for attempt counter n with that attempt's status, the URI and the method |
| `RequestRetry.AttemptsBounded` | src/Middleware/RequestRetryMiddleware.php:59 | starting from 0, at most `maxRetries + 1` attempts; with `maxRetries <= 0`, exactly one |
| `RequestRetry.SuccessEndsRun` | src/Middleware/RequestRetryMiddleware.php:59-61 | a first response with status 500 or below ends the loop after that one attempt, returns it, and logs nothing |
| `RequestRetry.PersistentConnectFailureUsesBudget` | src/Middleware/RequestRetryMiddleware.php:59-60 | a transport that always refuses connections is tried exactly remaining budget + 1 times |
| `MessageFormatter.CredentialTable` | src/Formatter/GuzzleMessageFormatter.php:24-26 | the table's keys are exactly the configured credentials (duplicates collapse), each mapped to `******` |
| `MessageFormatter.NewFormatter` | src/Formatter/GuzzleMessageFormatter.php:20-33 | DEBUG template iff `debug`, CLF otherwise; the table is absent exactly when no credential is given |
| `MessageFormatter.LongestMatch` | src/Formatter/GuzzleMessageFormatter.php:43-46 | the key replaced at a position is a non-empty key that matches there and no matching key is longer; none means no non-empty key matches |
| `MessageFormatter.Strtr` | src/Formatter/GuzzleMessageFormatter.php:43-46 | PHP's array `strtr`; `ReplacesLongestThenResumes` (replace step) and `CopiesWhereNothingMatches` (copy step) determine it on every non-empty line; `NoOccurrenceUnchanged`, `NotInOutput` and `NoCredentialSurvives` state its consequences |
| `MessageFormatter.ReplacesLongestThenResumes` | src/Formatter/GuzzleMessageFormatter.php:43-46 | where the longest match is `k`, the output is the replacement of `k` followed by the redaction of the rest: the replacement is never rescanned |
| `MessageFormatter.CopiesWhereNothingMatches` | src/Formatter/GuzzleMessageFormatter.php:43-46 | where no non-empty key matches at a position, that character is kept and the scan continues after it, so the text around a credential survives |
| `MessageFormatter.NoOccurrenceUnchanged` | src/Formatter/GuzzleMessageFormatter.php:43-46 | a line containing no credential is returned unchanged |
| `MessageFormatter.NotInOutput` | src/Formatter/GuzzleMessageFormatter.php:43-46 | with non-empty, star-free keys mapped to `******`, no key starts at any position of the output |
| `MessageFormatter.NoCredentialSurvives` | src/Formatter/GuzzleMessageFormatter.php:43-46 | with non-empty, star-free credentials, no credential occurs anywhere in the redacted line |
| `MessageFormatter.MaskAppearsWhereCredentialWas` | src/Formatter/GuzzleMessageFormatter.php:43-46 | if a credential occurs in the line, `******` occurs in the output |
| `MessageFormatter.CredentialOrderIrrelevant` | src/Formatter/GuzzleMessageFormatter.php:24-25 | two credential lists with the same elements give the same formatter and the same formatted lines |
| `MessageFormatter.Format` | src/Formatter/GuzzleMessageFormatter.php:38-47 | with a table as the constructor builds it (non-empty, star-free keys mapped to `******`), no credential occurs in the output; a line containing no credential is returned unchanged; the text around a credential is kept, through `Strtr`'s copy step (`CopiesWhereNothingMatches`) |
| `MessageFormatter.FormatMasksEveryCredential` | src/Formatter/GuzzleMessageFormatter.php:38-47 | `format` output contains none of the configured (non-empty, star-free) credentials |
| `MessageFormatter.LongestCredentialWins` | src/Formatter/GuzzleMessageFormatter.php:43 | with credentials `a` and `ab`, the line `abc` becomes `******c` |
| `UserAgent.SetUserAgent` | src/Middleware/UserAgentMiddleware.php:28-31 | `User-Agent` (any case) now yields exactly the picked pool element; method, URI, body and every other header are unchanged; one entry per name is kept |
| `UserAgent.InvokeAsWritten` | src/Middleware/UserAgentMiddleware.php:25-33 | the closure returns the rewritten request itself, never an outcome |
| `UserAgent.AsWrittenNeverCallsHandler` | src/Middleware/UserAgentMiddleware.php:25-33 | the closure's result does not depend on the next handler and is never that handler's outcome |
| `UserAgent.Invoke` | src/Middleware/UserAgentMiddleware.php:25-33 | the corrected closure returns the next handler's outcome for a request equal to the original except that `User-Agent` is the picked pool element |

## Left out

- md5 (ResponseCacheMiddleware.php:128) is the `digest` parameter. Collision resistance
  cannot be proved, so key uniqueness is stated under an injective-digest hypothesis. Only
  the serialized pre-image is proved injective.
- PhpSerialize.Str: writes the length of a string as its number of characters. PHP's
  `serialize()` writes the number of UTF-8 bytes, so for non-ASCII body, header or URI text
  the model's key pre-image differs from PHP's (`s:1:"é";` against `s:2:"é";`). Injectivity
  holds either way, and the digest is abstract, so no proved property depends on it.
- Request and response bodies are plain strings that can be read any number of times. The
  source reads them as streams with `(string) getBody()` and then `rewind_body`
  (ResponseCacheMiddleware.php:125-126, 149-150). Non-seekable streams and stream
  positions are not modelled.
- PHP `serialize()` turns a numeric-string header name into an integer key (`i:N;`). The
  model writes every header name as a string key. This does not affect injectivity.
- TTL parsing by `\DateInterval` (ResponseCacheMiddleware.php:155) is the `ttlValid` flag.
  Expiry belongs to the PSR-6 pool, so the store holds only fresh entries.
- Exceptions thrown by the pool's `getItem` (:81) and `save` (:171) propagate to the
  caller. They are not modelled.
- Promises are collapsed to settled outcomes. `then` callbacks run only on fulfilment.
- ResponseCache.AddDebugHeader: the only `withHeader` failure modelled is an empty header
  name, so the catch branch (:195-199) is unreachable for the constant name.
- UserAgent.SetUserAgent: like Http.WithHeader and Http.NewResponse, it stores header values
  untrimmed and unvalidated. Guzzle's PSR-7 implementation trims spaces and tabs from each value in
  `withHeader` and in the `Response` constructor, and rejects invalid values. So a pool
  element such as `" ua\t"` is stored by Guzzle as `"ua"`, while the model stores it as
  given. The `X-Guzzle-Cache` values `HIT` and `MISS` are unaffected.
- PHP floats as `cache` option values are not modelled. Their truthiness is not covered.
- Guzzle's `RetryMiddleware` loop and its backoff delays (RequestRetryMiddleware.php:40)
  are library code. `RunFrom` is an idealised driver that uses the decider and the
  attempt counter. Other middlewares of the stack, such as Guzzle's `http_errors`, may turn
  4xx/5xx responses into rejections before they reach the decider. That interaction is not
  modelled.
- The transfer-error kinds are only "connect failure" and "any other request exception".
  The exception class hierarchy is not modelled.
- `MessageFormatter` template rendering (GuzzleMessageFormatter.php:44) is library code.
  The rendered line is an input to `Format`.
- MessageFormatter.Format: requires the credential table to exist. With an empty
  credential list, the property is never assigned (GuzzleMessageFormatter.php:14, 24) and
  `strtr` receives `null` at :43. That behaviour depends on the PHP version, so it is not
  modelled.
- MessageFormatter.FormatMasksEveryCredential: requires non-empty credentials without `*`.
  PHP's treatment of an empty `strtr` key varies by version. A credential containing `*`
  could be re-formed by the mask text.
- Exception messages written through `getMessage()` are represented by their cause
  (`CaughtException(InvalidTtl)`), not by their text. Such an event stands for
  `logger->error($e->getMessage())` (ResponseCacheMiddleware.php:165, 197): error level,
  no context.
- The retry model does not cover the 32-bit/64-bit width of PHP integers. `maxRetries`
  and statuses are unbounded integers.
- UserAgent.Invoke: the corrected closure's handler takes only the request. The
  per-call options the stack would pass are not modelled.
- LogMiddleware (src/Middleware/LogMiddleware.php:48-59) delegates to Guzzle's
  `Middleware::log`. Its own behaviour is returning the handler unchanged when there is no
  logger.
- GuzzleClient is a facade over Guzzle's `Client` and `HandlerStack`, plus JSON, DOM and
  `parse_url` helpers. GuzzleClientInterface and GuzzleClientMiddlewareInterface hold only
  constants, and GuzzleClientException is empty. None of these is part of this model.
- Randomness (`array_rand`) is the `pick` oracle. Logger I/O is a list of log events.
  Concurrent cache races are not modelled.

## Findings

| source | as written | input that shows it | evidently intended | confidence | as-written member | corrected member |
|---|---|---|---|---|---|---|
| src/Middleware/RequestRetryMiddleware.php:61 | compares the status with `GuzzleClientInterface::HTTP_INTERNAL_SERVER_ERROR`, which GuzzleClientInterface.php:36-81 does not declare (its status constants stop at 424), so evaluating it raises an error | `retries = 0`, `maxRetries = 2`, no exception, response status 503 | compare with the literal 500 | medium (the parent `GuzzleHttp\ClientInterface` is not part of this model); not executed | `RequestRetry.AsWrittenFailsOnServerError` | `RequestRetry.Decide` |
| src/Middleware/UserAgentMiddleware.php:27-32 | the closure returns `$request->withHeader(...)` and never calls `$handler`, so no request reaches the transport | any request with any non-empty pool | `return $handler($request->withHeader(...), $options);` | high; not executed | `UserAgent.AsWrittenNeverCallsHandler` | `UserAgent.Invoke` |

=== FILE: decimal.dfy ===
/**
 * Decimal rendering of integers, as PHP prints them inside `serialize()`
 * output and through `sprintf('%d')`.
 */
module Decimal {

  predicate IsDigit(c: char) {
    '0' <= c <= '9'
  }

  predicate AllDigits(s: string) {
    forall i | 0 <= i < |s| :: IsDigit(s[i])
  }

  function DigitChar(d: nat): (c: char)
    requires d < 10
    ensures IsDigit(c)
  {
    ('0' as int + d) as char
  }

  function DigitValue(c: char): (d: nat)
    requires IsDigit(c)
    ensures d < 10
  {
    c as int - '0' as int
  }

  /** The shortest decimal text of `n`: no sign, no leading zero. */
  function NatToDec(n: nat): (s: string)
    ensures 1 <= |s|
    ensures AllDigits(s)
    ensures n < 10 <==> |s| == 1
    decreases n
  {
    if n < 10 then [DigitChar(n)] else NatToDec(n / 10) + [DigitChar(n % 10)]
  }

  /** The number a digit string denotes (the reading direction of `NatToDec`). */
  function DecValue(s: string): nat
    requires AllDigits(s)
  {
    if s == [] then 0 else DecValue(s[..|s| - 1]) * 10 + DigitValue(s[|s| - 1])
  }

  /** `%d` formatting of a PHP integer. */
  function IntToDec(i: int): (s: string)
    ensures 0 <= i ==> s == NatToDec(i)
    ensures i < 0 ==> s == "-" + NatToDec(-i)
  {
    if i < 0 then "-" + NatToDec(-i) else NatToDec(i)
  }

  /** Reading back the decimal text of `n` yields `n`. */
  lemma {:induction false} DecRoundTrip(n: nat)
    ensures DecValue(NatToDec(n)) == n
    decreases n
  {
    if n >= 10 {
      var s := NatToDec(n);
      assert s[..|s| - 1] == NatToDec(n / 10);
      DecRoundTrip(n / 10);
      assert DigitValue(s[|s| - 1]) == n % 10;
    }
  }

  /** Distinct numbers have distinct decimal texts. */
  lemma NatToDecInjective(m: nat, n: nat)
    requires NatToDec(m) == NatToDec(n)
    ensures m == n
  {
    DecRoundTrip(m);
    DecRoundTrip(n);
  }

  /**
   * A digit run followed by a non-digit is self-delimiting: two texts that
   * agree and both continue with a non-digit after their digit runs agree on
   * the run and on what follows it.
   */
  lemma DigitsThen(d1: string, d2: string, r1: string, r2: string)
    requires AllDigits(d1) && AllDigits(d2)
    requires 0 < |r1| && !IsDigit(r1[0])
    requires 0 < |r2| && !IsDigit(r2[0])
    requires d1 + r1 == d2 + r2
    ensures d1 == d2 && r1 == r2
  {
    assert d1 == (d1 + r1)[..|d1|];
    assert d2 == (d2 + r2)[..|d2|];
    assert r1 == (d1 + r1)[|d1|..];
    assert r2 == (d2 + r2)[|d2|..];
  }
}

=== FILE: http.dfy ===
/**
 * The PSR-7 message values the middlewares exchange, the PSR-3 log events
 * they emit, and the outcome of calling the next handler in the stack.
 */
module Http {
  import opened Wrappers

  /** One header line group: a name as first given and its values. */
  datatype Header = Header(name: string, values: seq<string>)

  /** Headers in insertion order, as `getHeaders()` returns them. */
  type Headers = seq<Header>

  datatype Request = Request(httpMethod: string, uri: string, headers: Headers, body: string)

  datatype Response = Response(status: int, headers: Headers, body: string, version: string, reason: string)

  /** Why the transport produced no response (Guzzle's exception classes). */
  datatype TransferError = ConnectError | OtherRequestError

  /** The settled promise the next handler returns. */
  datatype Outcome = Ok(response: Response) | Fail(error: TransferError)

  /** PSR-3 severities used by the middlewares. */
  datatype Level = Info | Warning

  /** The structured context array passed along with a log message. */
  datatype Context =
    | UriContext(uri: string)
    | RetryContext(status: int, uri: string, httpMethod: string)

  /**
   * Which foreign exception was caught and logged through `getMessage()`.
   * Such an event is always an error-level entry with no context.
   */
  datatype ErrorCause = InvalidTtl | InvalidHeader

  datatype LogEvent =
    | Logged(level: Level, message: string, context: Context)
    | CaughtException(cause: ErrorCause)

  // ---------------------------------------------------------------------
  // Header names are case-insensitive (PHP `strtolower`, ASCII only).
  // ---------------------------------------------------------------------

  function LowerChar(c: char): char {
    if 'A' <= c <= 'Z' then (c as int + 32) as char else c
  }

  function Lower(s: string): (r: string)
    ensures |r| == |s|
    ensures forall i | 0 <= i < |s| :: r[i] == LowerChar(s[i])
  {
    seq(|s|, i requires 0 <= i < |s| => LowerChar(s[i]))
  }

  predicate SameName(a: string, b: string) {
    Lower(a) == Lower(b)
  }

  /** No two entries share a name up to letter case (the PSR-7 message invariant). */
  predicate Normalized(hs: Headers) {
    forall i, j | 0 <= i < j < |hs| :: !SameName(hs[i].name, hs[j].name)
  }

  /** `getHeader($name)`: every value stored under `name`, in any letter case. */
  function GetHeader(hs: Headers, name: string): (vs: seq<string>)
    ensures (forall i | 0 <= i < |hs| :: !SameName(hs[i].name, name)) ==> vs == []
  {
    if hs == [] then []
    else (if SameName(hs[0].name, name) then hs[0].values else []) + GetHeader(hs[1..], name)
  }

  /** `withoutHeader($name)`: drop every entry stored under `name`, keep the rest in order. */
  function WithoutHeader(hs: Headers, name: string): (r: Headers)
    ensures forall h :: h in r <==> h in hs && !SameName(h.name, name)
    ensures |r| <= |hs|
    ensures (forall i | 0 <= i < |hs| :: !SameName(hs[i].name, name)) ==> r == hs
  {
    if hs == [] then []
    else if SameName(hs[0].name, name) then WithoutHeader(hs[1..], name)
    else [hs[0]] + WithoutHeader(hs[1..], name)
  }

  /**
   * `withHeader($name, $values)` in Guzzle's PSR-7 implementation: the entry
   * previously stored under `name` (in any case) is unset and the new entry is
   * appended under the spelling given here.
   */
  function WithHeader(hs: Headers, name: string, values: seq<string>): Headers {
    WithoutHeader(hs, name) + [Header(name, values)]
  }

  lemma {:induction false} GetHeaderAppend(hs: Headers, extra: Headers, name: string)
    ensures GetHeader(hs + extra, name) == GetHeader(hs, name) + GetHeader(extra, name)
    decreases |hs|
  {
    if hs != [] {
      assert (hs + extra)[1..] == hs[1..] + extra;
      GetHeaderAppend(hs[1..], extra, name);
    } else {
      assert hs + extra == extra;
    }
  }

  lemma {:induction false} GetHeaderWithout(hs: Headers, removed: string, name: string)
    ensures SameName(removed, name) ==> GetHeader(WithoutHeader(hs, removed), name) == []
    ensures !SameName(removed, name) ==> GetHeader(WithoutHeader(hs, removed), name) == GetHeader(hs, name)
    decreases |hs|
  {
    if hs != [] {
      GetHeaderWithout(hs[1..], removed, name);
      if !SameName(hs[0].name, removed) {
        GetHeaderAppend([hs[0]], WithoutHeader(hs[1..], removed), name);
      }
    }
  }

  lemma {:induction false} WithoutHeaderTwice(hs: Headers, name: string, other: string)
    requires SameName(name, other)
    ensures WithoutHeader(WithoutHeader(hs, name), other) == WithoutHeader(hs, name)
    decreases |hs|
  {
    if hs != [] {
      WithoutHeaderTwice(hs[1..], name, other);
    }
  }

  lemma {:induction false} WithoutHeaderNormalized(hs: Headers, name: string)
    requires Normalized(hs)
    ensures Normalized(WithoutHeader(hs, name))
    decreases |hs|
  {
    if hs != [] {
      WithoutHeaderNormalized(hs[1..], name);
      var rest := WithoutHeader(hs[1..], name);
      if !SameName(hs[0].name, name) {
        var r := [hs[0]] + rest;
        forall i, j | 0 <= i < j < |r|
          ensures !SameName(r[i].name, r[j].name)
        {
          if i == 0 {
            assert r[j] in hs[1..];
          } else {
            assert r[i] == rest[i - 1] && r[j] == rest[j - 1];
          }
        }
      }
    }
  }

  /**
   * What `withHeader` promises for lookups: `name` (in any case) now yields
   * exactly `values`, and every other name yields what it did before.
   */
  lemma WithHeaderGet(hs: Headers, name: string, values: seq<string>, n: string)
    ensures SameName(n, name) ==> GetHeader(WithHeader(hs, name, values), n) == values
    ensures !SameName(n, name) ==> GetHeader(WithHeader(hs, name, values), n) == GetHeader(hs, n)
  {
    GetHeaderAppend(WithoutHeader(hs, name), [Header(name, values)], n);
    GetHeaderWithout(hs, name, n);
  }

  /** `WithHeaderGet` for every name at once. */
  lemma WithHeaderLookups(hs: Headers, name: string, values: seq<string>)
    ensures forall n | SameName(n, name) :: GetHeader(WithHeader(hs, name, values), n) == values
    ensures forall n | !SameName(n, name) :: GetHeader(WithHeader(hs, name, values), n) == GetHeader(hs, n)
  {
    forall n ensures SameName(n, name) ==> GetHeader(WithHeader(hs, name, values), n) == values
      ensures !SameName(n, name) ==> GetHeader(WithHeader(hs, name, values), n) == GetHeader(hs, n)
    {
      WithHeaderGet(hs, name, values, n);
    }
  }

  /**
   * `withHeader` leaves exactly one entry under `name`, the new one at the
   * end, and keeps every other entry in its original order.
   */
  lemma WithHeaderShape(hs: Headers, name: string, values: seq<string>)
    ensures var r := WithHeader(hs, name, values);
      && r[|r| - 1] == Header(name, values)
      && (forall i | 0 <= i < |r| - 1 :: !SameName(r[i].name, name))
      && WithoutHeader(r, name) == WithoutHeader(hs, name)
  {
    var kept := WithoutHeader(hs, name);
    var r := WithHeader(hs, name, values);
    forall i | 0 <= i < |r| - 1 ensures !SameName(r[i].name, name) {
      assert r[i] == kept[i];
      assert r[i] in kept;
    }
    WithoutHeaderAppend(kept, [Header(name, values)], name);
    WithoutHeaderTwice(hs, name, name);
    assert WithoutHeader([Header(name, values)], name) == [];
  }

  /** `withHeader` keeps the PSR-7 invariant of one entry per name. */
  lemma WithHeaderNormalized(hs: Headers, name: string, values: seq<string>)
    ensures Normalized(hs) ==> Normalized(WithHeader(hs, name, values))
  {
    if !Normalized(hs) {
      return;
    }
    var kept := WithoutHeader(hs, name);
    var r := WithHeader(hs, name, values);
    WithoutHeaderNormalized(hs, name);
    forall i, j | 0 <= i < j < |r|
      ensures !SameName(r[i].name, r[j].name)
    {
      if j == |r| - 1 {
        assert r[i] == kept[i];
        assert r[i] in kept;
      } else {
        assert r[i] == kept[i] && r[j] == kept[j];
      }
    }
  }

  lemma {:induction false} WithoutHeaderAppend(hs: Headers, extra: Headers, name: string)
    ensures WithoutHeader(hs + extra, name) == WithoutHeader(hs, name) + WithoutHeader(extra, name)
    decreases |hs|
  {
    if hs != [] {
      assert (hs + extra)[1..] == hs[1..] + extra;
      WithoutHeaderAppend(hs[1..], extra, name);
    } else {
      assert hs + extra == extra;
    }
  }

  // ---------------------------------------------------------------------
  // Guzzle's `new Response(status, headers, body, version, reason)`.
  // ---------------------------------------------------------------------

  /** Index of the first entry stored under `name`, if any. */
  function FindHeader(hs: Headers, name: string): (r: Option<nat>)
    ensures r.Some? ==> r.value < |hs| && SameName(hs[r.value].name, name)
    ensures r.None? ==> forall i | 0 <= i < |hs| :: !SameName(hs[i].name, name)
  {
    if hs == [] then None
    else if SameName(hs[0].name, name) then Some(0)
    else match FindHeader(hs[1..], name)
      case None => None
      case Some(i) => Some(i + 1)
  }

  /**
   * The constructor's `setHeaders` loop: a header whose name is already
   * present (in any case) has its values appended to that entry; otherwise
   * it is added at the end.
   */
  function MergeHeaders(acc: Headers, hs: Headers): Headers
    decreases |hs|
  {
    if hs == [] then acc
    else
      var next := match FindHeader(acc, hs[0].name)
        case Some(i) => acc[i := Header(acc[i].name, acc[i].values + hs[0].values)]
        case None => acc + [hs[0]];
      MergeHeaders(next, hs[1..])
  }

  /** The response constructor: headers merged, an empty reason replaced by the standard phrase. */
  function NewResponse(phrases: map<int, string>, status: int, headers: Headers, body: string,
                       version: string, reason: string): Response
  {
    Response(status, MergeHeaders([], headers), body, version,
             if reason == "" && status in phrases then phrases[status] else reason)
  }

  /** A response as Guzzle builds it: the constructor would reproduce it unchanged. */
  predicate WellFormed(phrases: map<int, string>, r: Response) {
    Normalized(r.headers) && (r.reason == "" ==> r.status !in phrases)
  }

  lemma {:induction false} MergeNormalized(acc: Headers, hs: Headers)
    requires Normalized(acc + hs)
    ensures MergeHeaders(acc, hs) == acc + hs
    decreases |hs|
  {
    if hs != [] {
      var all := acc + hs;
      forall i | 0 <= i < |acc| ensures !SameName(acc[i].name, hs[0].name) {
        assert all[i] == acc[i] && all[|acc|] == hs[0];
      }
      assert (acc + [hs[0]]) + hs[1..] == all;
      MergeNormalized(acc + [hs[0]], hs[1..]);
    }
  }

  /** Rebuilding a well-formed response from its five parts gives it back. */
  lemma NewResponseRoundTrip(phrases: map<int, string>, r: Response)
    requires WellFormed(phrases, r)
    ensures NewResponse(phrases, r.status, r.headers, r.body, r.version, r.reason) == r
  {
    assert [] + r.headers == r.headers;
    MergeNormalized([], r.headers);
  }
}

=== FILE: message_formatter.dfy ===
/**
 * GuzzleMessageFormatter: the credential table built by the constructor,
 * the template choice, and the `strtr` pass that masks credentials in every
 * rendered log line.
 */
module MessageFormatter {
  import opened Wrappers

  const CREDENTIAL_REPLACEMENT: string := "******"

  /** Guzzle's two stock templates: common log format, or the full request/response dump. */
  datatype Template = Clf | Debug

  /**
   * `replacements` is `null` when no credential was given: the constructor's
   * loop never runs and the property is never assigned.
   */
  datatype Formatter = Formatter(replacements: Option<map<string, string>>, template: Template)

  /** `$this->credentialsToReplace[$credential] = '******'` for each credential in turn. */
  function CredentialTable(credentials: seq<string>): (t: map<string, string>)
    ensures t.Keys == set c | c in credentials
    ensures forall k | k in t :: t[k] == CREDENTIAL_REPLACEMENT
  {
    if credentials == [] then map[]
    else CredentialTable(credentials[..|credentials| - 1])[credentials[|credentials| - 1] := CREDENTIAL_REPLACEMENT]
  }

  function NewFormatter(credentials: seq<string>, debug: bool): (f: Formatter)
    ensures f.template == (if debug then Debug else Clf)
    ensures f.replacements.None? <==> credentials == []
    ensures f.replacements.Some? ==> f.replacements.value == CredentialTable(credentials)
  {
    Formatter(if credentials == [] then None else Some(CredentialTable(credentials)),
              if debug then Debug else Clf)
  }

  /** `key` occurs somewhere in `s`. */
  predicate Occurs(key: string, s: string) {
    exists i: nat | i <= |s| :: key <= s[i..]
  }

  /**
   * The longest key that is a non-empty prefix of `s`, trying lengths
   * `len`, `len - 1`, ..., 1.
   */
  function LongestPrefixUpTo(s: string, keys: set<string>, len: nat): (r: Option<string>)
    requires len <= |s|
    ensures r.Some? ==> r.value in keys && 1 <= |r.value| <= len && r.value <= s
    ensures r.Some? ==> forall k | k in keys && k <= s && |k| <= len :: |k| <= |r.value|
    ensures r.None? ==> forall k | k in keys && k <= s && |k| <= len :: k == []
  {
    if len == 0 then None
    else if s[..len] in keys then Some(s[..len])
    else
      assert forall k | k <= s && |k| == len :: k == s[..len];
      LongestPrefixUpTo(s, keys, len - 1)
  }

  /** The key `strtr` replaces at the start of `s`: the longest non-empty one that matches there. */
  function LongestMatch(s: string, keys: set<string>): (r: Option<string>)
    ensures r.Some? ==> r.value in keys && r.value != [] && r.value <= s
    ensures r.Some? ==> forall k | k in keys && k <= s :: |k| <= |r.value|
    ensures r.None? ==> forall k | k in keys && k <= s :: k == []
  {
    LongestPrefixUpTo(s, keys, |s|)
  }

  /**
   * PHP's `strtr($s, $table)`: scan left to right; where keys match, emit the
   * replacement of the longest one and resume after it; otherwise copy one
   * character. Replacement text is never scanned again.
   */
  function Strtr(s: string, table: map<string, string>): string
    decreases |s|
  {
    if s == [] then []
    else match LongestMatch(s, table.Keys)
      case Some(k) => table[k] + Strtr(s[|k|..], table)
      case None => [s[0]] + Strtr(s[1..], table)
  }

  /** `format`: the line the parent formatter rendered, with every credential masked. */
  function Format(f: Formatter, rendered: string): (r: string)
    requires f.replacements.Some?
    // A table as the constructor builds it leaves no credential in the line.
    ensures MaskingTable(f.replacements.value) ==> forall k | k in f.replacements.value :: !Occurs(k, r)
    // A line without any credential passes through unchanged.
    ensures (forall k | k in f.replacements.value && k != [] :: !Occurs(k, rendered)) ==> r == rendered
  {
    var table := f.replacements.value;
    var masked := Strtr(rendered, table);
    assert MaskingTable(table) ==> forall k | k in table :: !Occurs(k, masked) by {
      if MaskingTable(table) { NoCredentialSurvives(rendered, table); }
    }
    assert (forall k | k in table && k != [] :: !Occurs(k, rendered)) ==> masked == rendered by {
      if forall k | k in table && k != [] :: !Occurs(k, rendered) { NoOccurrenceUnchanged(rendered, table); }
    }
    masked
  }

  predicate ValidCredentials(credentials: seq<string>) {
    credentials != [] && forall c | c in credentials :: c != []
  }

  // ---------------------------------------------------------------------
  // Properties of the redaction pass.
  // ---------------------------------------------------------------------

  /** Where keys match, the longest one is replaced and scanning resumes right after it. */
  lemma ReplacesLongestThenResumes(k: string, rest: string, table: map<string, string>)
    requires k in table && k != []
    requires forall k' | k' in table && k' <= k + rest :: |k'| <= |k|
    ensures Strtr(k + rest, table) == table[k] + Strtr(rest, table)
  {
    var s := k + rest;
    assert k <= s;
    var m := LongestMatch(s, table.Keys);
    assert m.Some? && |m.value| == |k|;
    assert m.value == s[..|k|] == k;
    assert s[|k|..] == rest;
  }

  /** Where no non-empty key matches, the character is kept and the scan goes on after it. */
  lemma CopiesWhereNothingMatches(c: char, rest: string, table: map<string, string>)
    requires forall k | k in table && k != [] :: !(k <= [c] + rest)
    ensures Strtr([c] + rest, table) == [c] + Strtr(rest, table)
  {
  }

  lemma MatchOccurs(s: string, keys: set<string>)
    ensures LongestMatch(s, keys).Some? ==> Occurs(LongestMatch(s, keys).value, s)
  {
    if LongestMatch(s, keys).Some? {
      assert LongestMatch(s, keys).value <= s[0..];
    }
  }

  lemma StarFreeHead(t: string, m: nat)
    requires 0 < m <= |t| && NoStar(t[..m])
    ensures t[0] != '*'
  {
    assert t[..m][0] == t[0];
  }

  /** A line in which no key occurs is returned unchanged. */
  lemma {:induction false} NoOccurrenceUnchanged(s: string, table: map<string, string>)
    requires forall k | k in table && k != [] :: !Occurs(k, s)
    ensures Strtr(s, table) == s
    decreases |s|
  {
    if s != [] {
      var m := LongestMatch(s, table.Keys);
      MatchOccurs(s, table.Keys);
      if m.Some? {
        assert false;
      }
      NoOccurrenceUnchanged(s[1..], table);
    }
  }

  predicate NoStar(s: string) {
    forall i | 0 <= i < |s| :: s[i] != '*'
  }

  /** Keys and values as the constructor builds them, with no key containing the mask character. */
  predicate MaskingTable(table: map<string, string>) {
    forall k | k in table :: k != [] && NoStar(k) && table[k] == CREDENTIAL_REPLACEMENT
  }

  /** A star-free prefix of the output is copied text, so it is also a prefix of the input. */
  lemma {:induction false} StarFreePrefixIsCopied(s: string, table: map<string, string>, m: nat)
    requires MaskingTable(table)
    requires m <= |Strtr(s, table)| && NoStar(Strtr(s, table)[..m])
    ensures m <= |s| && Strtr(s, table)[..m] == s[..m]
    decreases |s|
  {
    if s != [] && m > 0 {
      var out := Strtr(s, table);
      match LongestMatch(s, table.Keys)
      case Some(k) =>
        StarFreeHead(out, m);
        assert false;
      case None =>
        var tail := Strtr(s[1..], table);
        assert out == [s[0]] + tail;
        var copied := out[..m];
        var pre := tail[..m - 1];
        assert copied == [s[0]] + pre;
        assert NoStar(pre) by {
          forall i | 0 <= i < |pre| ensures pre[i] != '*' {
            assert pre[i] == copied[i + 1];
          }
        }
        StarFreePrefixIsCopied(s[1..], table, m - 1);
    }
  }

  /** No key of a masking table occurs at any position of the output. */
  lemma {:induction false} NotInOutput(s: string, table: map<string, string>, k: string, i: nat)
    requires MaskingTable(table) && k in table
    requires i <= |Strtr(s, table)|
    ensures !(k <= Strtr(s, table)[i..])
    decreases |s|
  {
    if s != [] {
      var out := Strtr(s, table);
      match LongestMatch(s, table.Keys)
      case Some(m) =>
        var tail := Strtr(s[|m|..], table);
        assert out == CREDENTIAL_REPLACEMENT + tail;
        if i < |CREDENTIAL_REPLACEMENT| {
          assert out[i..][0] == '*';
        } else {
          assert out[i..] == tail[i - |CREDENTIAL_REPLACEMENT|..];
          NotInOutput(s[|m|..], table, k, i - |CREDENTIAL_REPLACEMENT|);
        }
      case None =>
        var tail := Strtr(s[1..], table);
        assert out == [s[0]] + tail;
        if i == 0 {
          if k <= out {
            assert out[..|k|] == k;
            StarFreePrefixIsCopied(s, table, |k|);
            assert false;
          }
        } else {
          assert out[i..] == tail[i - 1..];
          NotInOutput(s[1..], table, k, i - 1);
        }
    }
  }

  /** No credential survives redaction when credentials are non-empty and star-free. */
  lemma NoCredentialSurvives(s: string, table: map<string, string>)
    requires MaskingTable(table)
    ensures forall k | k in table :: !Occurs(k, Strtr(s, table))
  {
    forall k, i: nat | k in table && i <= |Strtr(s, table)|
      ensures !(k <= Strtr(s, table)[i..])
    {
      NotInOutput(s, table, k, i);
    }
  }

  /** Where a credential occurred, the mask appears in the output. */
  lemma {:induction false} MaskAppearsWhereCredentialWas(s: string, table: map<string, string>, k: string)
    requires MaskingTable(table)
    requires k in table && Occurs(k, s)
    ensures Occurs(CREDENTIAL_REPLACEMENT, Strtr(s, table))
    decreases |s|
  {
    var out := Strtr(s, table);
    var i: nat :| i <= |s| && k <= s[i..];
    match LongestMatch(s, table.Keys)
    case Some(m) =>
      assert CREDENTIAL_REPLACEMENT <= out[0..];
    case None =>
      if i == 0 {
        assert false;
      }
      assert s[1..][i - 1..] == s[i..];
      MaskAppearsWhereCredentialWas(s[1..], table, k);
      var tail := Strtr(s[1..], table);
      var j: nat :| j <= |tail| && CREDENTIAL_REPLACEMENT <= tail[j..];
      assert out[j + 1..] == tail[j..];
  }

  /** The table, and so every formatted line, depends only on the set of credentials. */
  lemma CredentialOrderIrrelevant(a: seq<string>, b: seq<string>, debug: bool, rendered: string)
    requires a != [] && forall c :: c in a <==> c in b
    ensures NewFormatter(a, debug) == NewFormatter(b, debug)
    ensures Format(NewFormatter(a, debug), rendered) == Format(NewFormatter(b, debug), rendered)
  {
    var ta := CredentialTable(a);
    var tb := CredentialTable(b);
    assert a[0] in b;
    assert ta == tb;
  }

  /** For a valid credential list without stars, the formatted line contains none of them. */
  lemma FormatMasksEveryCredential(credentials: seq<string>, debug: bool, rendered: string)
    requires ValidCredentials(credentials)
    requires forall c | c in credentials :: NoStar(c)
    ensures forall c | c in credentials :: !Occurs(c, Format(NewFormatter(credentials, debug), rendered))
  {
    NoCredentialSurvives(rendered, CredentialTable(credentials));
  }

  /** With credentials `a` and `ab`, the line `abc` loses `ab` as a whole, not just `a`. */
  lemma LongestCredentialWins()
    ensures Strtr("abc", CredentialTable(["a", "ab"])) == CREDENTIAL_REPLACEMENT + "c"
  {
    var table := CredentialTable(["a", "ab"]);
    assert table.Keys == {"a", "ab"};
    assert "abc" == "ab" + "c";
    forall k | k in table && k <= "ab" + "c" ensures |k| <= |"ab"| {
    }
    ReplacesLongestThenResumes("ab", "c", table);
    forall k | k in table && k != [] ensures !Occurs(k, "c") {
      forall i: nat | i <= |"c"| ensures !(k <= "c"[i..]) {
        assert k[0] == 'a';
        if i == 0 {
          assert "c"[i..][0] == 'c';
        }
      }
    }
    NoOccurrenceUnchanged("c", table);
  }
}

=== FILE: php_serialize.dfy ===
/**
 * PHP's `serialize()` restricted to the values the cache key is computed
 * from: strings, integer list keys, lists of strings and the header map.
 * Every string is written with its length in front, which is what makes the
 * encoding uniquely decodable.
 */
module PhpSerialize {
  import opened Decimal
  import opened Http

  // Each encoder takes the text that follows it, so a whole array is one
  // right-nested term and decoding never has to re-associate concatenations.

  /** `s:<len>:"<bytes>";` followed by `rest`. */
  function Str(s: string, rest: string): string {
    "s:" + (NatToDec(|s|) + (":\"" + (s + ("\";" + rest))))
  }

  /** `i:<n>;` followed by `rest` (list indices are never negative). */
  function Int(n: nat, rest: string): string {
    "i:" + (NatToDec(n) + (";" + rest))
  }

  /** The entries `k => vs[0]`, `k+1 => vs[1]`, ... of a PHP list, then `rest`. */
  function ListItems(vs: seq<string>, k: nat, rest: string): string
    decreases |vs|
  {
    if vs == [] then rest else Int(k, Str(vs[0], ListItems(vs[1..], k + 1, rest)))
  }

  /** A list of strings: `a:<count>:{i:0;s:..;i:1;s:..;}`, then `rest`. */
  function List(vs: seq<string>, rest: string): string {
    "a:" + (NatToDec(|vs|) + (":{" + ListItems(vs, 0, "}" + rest)))
  }

  function HeaderItems(hs: Headers, rest: string): string
    decreases |hs|
  {
    if hs == [] then rest else Str(hs[0].name, List(hs[0].values, HeaderItems(hs[1..], rest)))
  }

  /** `getHeaders()` as an array name => list of values, then `rest`. */
  function HeaderMap(hs: Headers, rest: string): string {
    "a:" + (NatToDec(|hs|) + (":{" + HeaderItems(hs, "}" + rest)))
  }

  /** The four-entry array `[body, headers, method, uri]` the cache key digests. */
  function KeyFields(body: string, headers: Headers, httpMethod: string, uri: string): string {
    "a:4:{" + Str("body", Str(body, Str("headers", HeaderMap(headers,
      Str("method", Str(httpMethod, Str("uri", Str(uri, "}"))))))))
  }

  // ---------------------------------------------------------------------
  // Unique decoding: an encoding followed by anything determines both.
  // ---------------------------------------------------------------------

  lemma SplitEqual(a1: string, r1: string, a2: string, r2: string)
    requires a1 + r1 == a2 + r2 && |a1| == |a2|
    ensures a1 == a2 && r1 == r2
  {
    assert a1 == (a1 + r1)[..|a1|];
    assert r1 == (a1 + r1)[|a1|..];
  }

  /** `<tag><digits><x>` with a fixed two-letter tag is decoded by reading digits up to the non-digit `x` starts with. */
  lemma CountedPrefix(tag: string, m: nat, n: nat, x: string, y: string)
    requires |tag| == 2
    requires 0 < |x| && !IsDigit(x[0]) && 0 < |y| && !IsDigit(y[0])
    requires tag + (NatToDec(m) + x) == tag + (NatToDec(n) + y)
    ensures m == n && x == y
  {
    SplitEqual(tag, NatToDec(m) + x, tag, NatToDec(n) + y);
    DigitsThen(NatToDec(m), NatToDec(n), x, y);
    NatToDecInjective(m, n);
  }

  lemma StrUnique(a: string, b: string, x: string, y: string)
    requires Str(a, x) == Str(b, y)
    ensures a == b && x == y
  {
    var ta := ":\"" + (a + ("\";" + x));
    var tb := ":\"" + (b + ("\";" + y));
    CountedPrefix("s:", |a|, |b|, ta, tb);
    SplitEqual(":\"", a + ("\";" + x), ":\"", b + ("\";" + y));
    SplitEqual(a, "\";" + x, b, "\";" + y);
    SplitEqual("\";", x, "\";", y);
  }

  lemma IntUnique(m: nat, n: nat, x: string, y: string)
    requires Int(m, x) == Int(n, y)
    ensures m == n && x == y
  {
    CountedPrefix("i:", m, n, ";" + x, ";" + y);
    SplitEqual(";", x, ";", y);
  }

  lemma {:induction false} ListItemsUnique(vs: seq<string>, ws: seq<string>, k: nat, x: string, y: string)
    requires |vs| == |ws|
    requires ListItems(vs, k, x) == ListItems(ws, k, y)
    ensures vs == ws && x == y
    decreases |vs|
  {
    if vs != [] {
      IntUnique(k, k, Str(vs[0], ListItems(vs[1..], k + 1, x)), Str(ws[0], ListItems(ws[1..], k + 1, y)));
      StrUnique(vs[0], ws[0], ListItems(vs[1..], k + 1, x), ListItems(ws[1..], k + 1, y));
      ListItemsUnique(vs[1..], ws[1..], k + 1, x, y);
      assert vs == [vs[0]] + vs[1..] && ws == [ws[0]] + ws[1..];
    }
  }

  lemma ListUnique(vs: seq<string>, ws: seq<string>, x: string, y: string)
    requires List(vs, x) == List(ws, y)
    ensures vs == ws && x == y
  {
    var tv := ":{" + ListItems(vs, 0, "}" + x);
    var tw := ":{" + ListItems(ws, 0, "}" + y);
    CountedPrefix("a:", |vs|, |ws|, tv, tw);
    SplitEqual(":{", ListItems(vs, 0, "}" + x), ":{", ListItems(ws, 0, "}" + y));
    ListItemsUnique(vs, ws, 0, "}" + x, "}" + y);
    SplitEqual("}", x, "}", y);
  }

  lemma {:induction false} HeaderItemsUnique(hs: Headers, gs: Headers, x: string, y: string)
    requires |hs| == |gs|
    requires HeaderItems(hs, x) == HeaderItems(gs, y)
    ensures hs == gs && x == y
    decreases |hs|
  {
    if hs != [] {
      var rh := HeaderItems(hs[1..], x);
      var rg := HeaderItems(gs[1..], y);
      StrUnique(hs[0].name, gs[0].name, List(hs[0].values, rh), List(gs[0].values, rg));
      ListUnique(hs[0].values, gs[0].values, rh, rg);
      HeaderItemsUnique(hs[1..], gs[1..], x, y);
      assert hs == [hs[0]] + hs[1..] && gs == [gs[0]] + gs[1..];
    }
  }

  lemma HeaderMapUnique(hs: Headers, gs: Headers, x: string, y: string)
    requires HeaderMap(hs, x) == HeaderMap(gs, y)
    ensures hs == gs && x == y
  {
    var th := ":{" + HeaderItems(hs, "}" + x);
    var tg := ":{" + HeaderItems(gs, "}" + y);
    CountedPrefix("a:", |hs|, |gs|, th, tg);
    SplitEqual(":{", HeaderItems(hs, "}" + x), ":{", HeaderItems(gs, "}" + y));
    HeaderItemsUnique(hs, gs, "}" + x, "}" + y);
    SplitEqual("}", x, "}", y);
  }

  /**
   * The serialized key pre-image is injective: two requests serialize alike
   * exactly when they agree on body, headers, method and URI.
   */
  lemma KeyFieldsInjective(b1: string, h1: Headers, m1: string, u1: string,
                           b2: string, h2: Headers, m2: string, u2: string)
    ensures KeyFields(b1, h1, m1, u1) == KeyFields(b2, h2, m2, u2)
        <==> b1 == b2 && h1 == h2 && m1 == m2 && u1 == u2
  {
    if KeyFields(b1, h1, m1, u1) == KeyFields(b2, h2, m2, u2) {
      var after1 := Str("method", Str(m1, Str("uri", Str(u1, "}"))));
      var after2 := Str("method", Str(m2, Str("uri", Str(u2, "}"))));
      var t1 := Str(b1, Str("headers", HeaderMap(h1, after1)));
      var t2 := Str(b2, Str("headers", HeaderMap(h2, after2)));
      SplitEqual("a:4:{", Str("body", t1), "a:4:{", Str("body", t2));
      StrUnique("body", "body", t1, t2);
      StrUnique(b1, b2, Str("headers", HeaderMap(h1, after1)), Str("headers", HeaderMap(h2, after2)));
      StrUnique("headers", "headers", HeaderMap(h1, after1), HeaderMap(h2, after2));
      HeaderMapUnique(h1, h2, after1, after2);
      StrUnique("method", "method", Str(m1, Str("uri", Str(u1, "}"))), Str(m2, Str("uri", Str(u2, "}"))));
      StrUnique(m1, m2, Str("uri", Str(u1, "}")), Str("uri", Str(u2, "}")));
      StrUnique("uri", "uri", Str(u1, "}"), Str(u2, "}"));
      StrUnique(u1, u2, "}", "}");
    }
  }
}

=== FILE: request_retry.dfy ===
/**
 * RequestRetryMiddleware: the decider Guzzle's retry loop consults after
 * every attempt, its warning log, and a driver that plays that loop with the
 * attempt counter Guzzle keeps.
 */
module RequestRetry {
  import opened Wrappers
  import opened Decimal
  import opened Http

  const MAX_RETRIES: int := 2

  /** `HTTP_INTERNAL_SERVER_ERROR`; only statuses strictly above it are retried. */
  const SERVER_ERROR_THRESHOLD: int := 500

  datatype Config = Config(loggerPresent: bool, maxRetries: int)

  datatype Decision = Decision(retry: bool, logs: seq<LogEvent>)

  /** The constructor's defaults: `maxRetries` is 2. */
  function DefaultConfig(loggerPresent: bool): (c: Config)
    ensures c.maxRetries == 2 && c.loggerPresent == loggerPresent
  {
    Config(loggerPresent, MAX_RETRIES)
  }

  /** A missing response counts as status 0. */
  function StatusCode(response: Option<Response>): int {
    if response.Some? then response.value.status else 0
  }

  function RetryMessage(retries: int): string {
    "Request retry (" + IntToDec(retries) + ")"
  }

  /** `decider($retries, $request, $response, $exception)` with the threshold read as the literal 500. */
  function Decide(cfg: Config, retries: int, req: Request, response: Option<Response>, error: Option<TransferError>): (d: Decision)
    // The budget is checked first: nothing is retried once it is spent.
    ensures retries >= cfg.maxRetries ==> !d.retry
    // Within budget a connection failure is always retried, whatever the status.
    ensures retries < cfg.maxRetries && error == Some(ConnectError) ==> d.retry
    // Otherwise only a status above 500 is retried: 2xx, 4xx and 500 itself are not.
    ensures error != Some(ConnectError) ==> (d.retry <==> retries < cfg.maxRetries && StatusCode(response) > 500)
    // Without a response only a connection failure can lead to a retry.
    ensures response.None? && error != Some(ConnectError) ==> !d.retry
    // One warning per retry taken, and only with a logger.
    ensures d.logs == (if d.retry && cfg.loggerPresent
                       then [Logged(Warning, RetryMessage(retries), RetryContext(StatusCode(response), req.uri, req.httpMethod))]
                       else [])
  {
    var status := StatusCode(response);
    var retry := retries < cfg.maxRetries && (error == Some(ConnectError) || status > SERVER_ERROR_THRESHOLD);
    Decision(retry,
             if retry && cfg.loggerPresent
             then [Logged(Warning, RetryMessage(retries), RetryContext(status, req.uri, req.httpMethod))]
             else [])
  }

  /** The error PHP raises for a class constant that no class or interface declares. */
  datatype PhpError = UndefinedConstant(name: string)

  /**
   * The decider as written: the threshold is `GuzzleClientInterface::HTTP_INTERNAL_SERVER_ERROR`,
   * which that interface does not declare, so evaluating the comparison raises
   * an error. `&&` and `||` short-circuit, so it is reached only within budget
   * and without a connection failure.
   */
  function DecideAsWritten(cfg: Config, retries: int, req: Request, response: Option<Response>, error: Option<TransferError>)
    : (r: Result<Decision, PhpError>)
    ensures retries < cfg.maxRetries && error != Some(ConnectError) ==>
      r == Failure(UndefinedConstant("HTTP_INTERNAL_SERVER_ERROR"))
    ensures r.Success? ==> r.value == Decide(cfg, retries, req, response, error)
    // Out of budget or on a connection failure the constant is never evaluated, so the decision stands.
    ensures retries >= cfg.maxRetries || error == Some(ConnectError) ==>
      r == Success(Decide(cfg, retries, req, response, error))
  {
    if !(retries < cfg.maxRetries) then Success(Decision(false, []))
    else if error == Some(ConnectError) then
      Success(Decision(true, if cfg.loggerPresent
                             then [Logged(Warning, RetryMessage(retries), RetryContext(StatusCode(response), req.uri, req.httpMethod))]
                             else []))
    else Failure(UndefinedConstant("HTTP_INTERNAL_SERVER_ERROR"))
  }

  /** A 503 on the first attempt makes the decider as written fail instead of deciding. */
  lemma AsWrittenFailsOnServerError(req: Request, r: Response)
    requires r.status == 503
    ensures DecideAsWritten(DefaultConfig(false), 0, req, Some(r), None).Failure?
    ensures Decide(DefaultConfig(false), 0, req, Some(r), None).retry
  {
  }

  datatype Run = Run(attempts: nat, last: Outcome, logs: seq<LogEvent>)

  /** What the decider is given for an attempt's outcome. */
  function ResponseOf(o: Outcome): Option<Response> {
    if o.Ok? then Some(o.response) else None
  }

  function ErrorOf(o: Outcome): Option<TransferError> {
    if o.Fail? then Some(o.error) else None
  }

  function Remaining(cfg: Config, retries: nat): nat {
    if cfg.maxRetries > retries then cfg.maxRetries - retries else 0
  }

  /** The decider's verdict on the attempt made with counter `n`. */
  function DecisionAt(cfg: Config, req: Request, send: nat -> Outcome, n: nat): Decision {
    Decide(cfg, n, req, ResponseOf(send(n)), ErrorOf(send(n)))
  }

  /** The warning logged for the retry taken after the attempt with counter `n`. */
  function RetryWarning(req: Request, send: nat -> Outcome, n: nat): LogEvent {
    Logged(Warning, RetryMessage(n), RetryContext(StatusCode(ResponseOf(send(n))), req.uri, req.httpMethod))
  }

  /** `logs` are the warnings for the retries after attempts `from`, `from + 1`, ... in that order. */
  predicate RetryWarnings(req: Request, send: nat -> Outcome, from: nat, logs: seq<LogEvent>) {
    forall i | 0 <= i < |logs| :: logs[i] == RetryWarning(req, send, from + i)
  }

  lemma RetryWarningsShift(req: Request, send: nat -> Outcome, n: nat,
                           first: seq<LogEvent>, rest: seq<LogEvent>)
    requires first == [] || first == [RetryWarning(req, send, n)]
    requires first == [] ==> rest == []
    requires RetryWarnings(req, send, n + 1, rest)
    ensures RetryWarnings(req, send, n, first + rest)
  {
    var logs := first + rest;
    forall i | 0 <= i < |logs| ensures logs[i] == RetryWarning(req, send, n + i) {
      if i > 0 { assert logs[i] == rest[i - 1]; }
    }
  }

  /**
   * Guzzle's retry loop from attempt counter `retries` on: `send(n)` is the
   * outcome of the attempt made with counter `n`; the counter goes up by one
   * per retry, and the loop ends with the first outcome the decider declines.
   */
  function RunFrom(cfg: Config, req: Request, send: nat -> Outcome, retries: nat): (r: Run)
    ensures 1 <= r.attempts <= Remaining(cfg, retries) + 1
    ensures r.last == send(retries + r.attempts - 1)
    ensures !Decide(cfg, retries + r.attempts - 1, req, ResponseOf(r.last), ErrorOf(r.last)).retry
    // Every earlier attempt was one the decider retried: the run stops at the first decline.
    ensures forall n | retries <= n < retries + r.attempts - 1 :: DecisionAt(cfg, req, send, n).retry
    ensures |r.logs| == (if cfg.loggerPresent then r.attempts - 1 else 0)
    // The i-th event is the decider's warning for the retry taken after attempt `retries + i`.
    ensures RetryWarnings(req, send, retries, r.logs)
    decreases Remaining(cfg, retries)
  {
    var outcome := send(retries);
    var d := Decide(cfg, retries, req, ResponseOf(outcome), ErrorOf(outcome));
    if d.retry then
      var rest := RunFrom(cfg, req, send, retries + 1);
      var logs := d.logs + rest.logs;
      RetryWarningsShift(req, send, retries, d.logs, rest.logs);
      assert d == DecisionAt(cfg, req, send, retries);
      Run(rest.attempts + 1, rest.last, logs)
    else
      Run(1, outcome, d.logs)
  }

  /** At most `maxRetries + 1` attempts in all; with `maxRetries <= 0`, exactly one. */
  lemma AttemptsBounded(cfg: Config, req: Request, send: nat -> Outcome)
    ensures RunFrom(cfg, req, send, 0).attempts <= (if cfg.maxRetries > 0 then cfg.maxRetries else 0) + 1
    ensures cfg.maxRetries <= 0 ==> RunFrom(cfg, req, send, 0).attempts == 1
  {
  }

  /** A response of 500 or below on the first attempt ends the loop there, with nothing logged. */
  lemma SuccessEndsRun(cfg: Config, req: Request, send: nat -> Outcome)
    requires send(0).Ok? && send(0).response.status <= 500
    ensures RunFrom(cfg, req, send, 0).attempts == 1
    ensures RunFrom(cfg, req, send, 0).last == send(0)
    ensures RunFrom(cfg, req, send, 0).logs == []
  {
  }

  /** A transport that keeps refusing connections is tried exactly the remaining budget + 1 times. */
  lemma {:induction false} PersistentConnectFailureUsesBudget(cfg: Config, req: Request, send: nat -> Outcome, retries: nat)
    requires forall n :: send(n) == Fail(ConnectError)
    ensures RunFrom(cfg, req, send, retries).attempts == Remaining(cfg, retries) + 1
    decreases Remaining(cfg, retries)
  {
    if retries < cfg.maxRetries {
      PersistentConnectFailureUsesBudget(cfg, req, send, retries + 1);
    }
  }
}

=== FILE: response_cache.dfy ===
/**
 * ResponseCacheMiddleware: one call of the closure it wraps around the next
 * handler, as a pure step from (configuration, request, options, store,
 * next handler, save oracle) to (outcome, new store, log events, the options
 * the next handler received, if it was called).
 */
module ResponseCache {
  import opened Wrappers
  import opened Http
  import PhpSerialize

  const CACHE_OPTION: string := "cache"
  const CACHE_KEY_PREFIX: string := "guzzle_cache"
  const DEBUG_HEADER: string := "X-Guzzle-Cache"
  const DEBUG_HEADER_HIT: string := "HIT"
  const DEBUG_HEADER_MISS: string := "MISS"

  const TAKEN_FROM_CACHE: string := "Guzzle request result is taken from cache"
  const SAVED_TO_CACHE: string := "Guzzle request result is saved to cache"

  /** A value in the per-call options array (PHP scalars and arrays). */
  datatype PhpValue =
    | PhpNull
    | PhpBool(b: bool)
    | PhpInt(i: int)
    | PhpString(s: string)
    | PhpArray(items: seq<PhpValue>)

  type Options = map<string, PhpValue>

  /** PHP's conversion to bool: `null`, `false`, `0`, `""`, `"0"` and `[]` are false. */
  predicate Truthy(v: PhpValue) {
    match v
    case PhpNull => false
    case PhpBool(b) => b
    case PhpInt(i) => i != 0
    case PhpString(s) => s != "" && s != "0"
    case PhpArray(items) => items != []
  }

  /**
   * The construction-time settings. `digest` is md5 (foreign), `ttlValid`
   * says whether `new \DateInterval($cacheTtl)` accepts the configured TTL (`PT1H` by default),
   * and `phrases` is the response class's table of standard reason phrases.
   */
  datatype Config = Config(
    debug: bool,
    ttlValid: bool,
    loggerPresent: bool,
    digest: string -> string,
    phrases: map<int, string>)

  /** The five fields a stored item holds. */
  datatype Entry = Entry(status: int, headers: Headers, body: string, version: string, reason: string)

  /** The PSR-6 pool, restricted to items that are still fresh. */
  type Store = map<string, Entry>

  /** The inner handler, settled synchronously. */
  type Handler = (Request, Options) -> Outcome

  datatype Step = Step(outcome: Outcome, store: Store, logs: seq<LogEvent>, forwarded: Option<Options>)
  {
    predicate InnerCalled() { forwarded.Some? }
  }

  datatype Saved = Saved(ok: bool, store: Store, logs: seq<LogEvent>)

  /** `$options['cache'] ?? true`: an absent or null entry means caching is on. */
  function CacheEnabled(opts: Options): (on: bool)
    ensures CACHE_OPTION !in opts ==> on
    ensures CACHE_OPTION in opts && opts[CACHE_OPTION].PhpNull? ==> on
    ensures CACHE_OPTION in opts && !opts[CACHE_OPTION].PhpNull? ==> (on <==> Truthy(opts[CACHE_OPTION]))
  {
    var v := if CACHE_OPTION in opts && !opts[CACHE_OPTION].PhpNull? then opts[CACHE_OPTION] else PhpBool(true);
    Truthy(v)
  }

  /** `getCacheItemKey`: the prefix, a bar, and the digest of the serialized request. */
  function CacheKey(digest: string -> string, req: Request): (k: string)
    ensures CACHE_KEY_PREFIX + "|" <= k
  {
    CACHE_KEY_PREFIX + "|" + digest(PhpSerialize.KeyFields(req.body, req.headers, req.httpMethod, req.uri))
  }

  /** What is stored for a response. */
  function ToEntry(r: Response): Entry {
    Entry(r.status, r.headers, r.body, r.version, r.reason)
  }

  /** `new Response(...)` over the five stored fields. */
  function Rebuild(phrases: map<int, string>, e: Entry): Response {
    NewResponse(phrases, e.status, e.headers, e.body, e.version, e.reason)
  }

  /** `addDebugHeader`: the marker header when debug is on, the response untouched otherwise. */
  function AddDebugHeader(cfg: Config, r: Response, value: string): (res: (Response, seq<LogEvent>))
    ensures !cfg.debug ==> res == (r, [])
    ensures cfg.debug ==> res.1 == []
    ensures cfg.debug ==> GetHeader(res.0.headers, DEBUG_HEADER) == [value]
    ensures res.0.status == r.status && res.0.body == r.body && res.0.version == r.version && res.0.reason == r.reason
    ensures WithoutHeader(res.0.headers, DEBUG_HEADER) == WithoutHeader(r.headers, DEBUG_HEADER)
  {
    WithHeaderGet(r.headers, DEBUG_HEADER, [value], DEBUG_HEADER);
    WithHeaderShape(r.headers, DEBUG_HEADER, [value]);
    if cfg.debug then
      // The else branch stands for the catch around `withHeader`, which throws only
      // for an empty name; with the non-empty marker name it is never taken.
      if DEBUG_HEADER != "" then (r.(headers := WithHeader(r.headers, DEBUG_HEADER, [value])), [])
      else (r, if cfg.loggerPresent then [CaughtException(InvalidHeader)] else [])
    else (r, [])
  }

  /** `saveToCache`: the key recomputed from the request, the item written if the TTL is accepted and the pool saves it. */
  function SaveToCache(cfg: Config, req: Request, resp: Response, store: Store, saveResult: bool): (s: Saved)
    ensures !cfg.ttlValid ==> !s.ok && s.store == store
    ensures !cfg.ttlValid ==> s.logs == (if cfg.loggerPresent then [CaughtException(InvalidTtl)] else [])
    ensures cfg.ttlValid ==> s.ok == saveResult
    ensures s.ok ==> s.store == store[CacheKey(cfg.digest, req) := ToEntry(resp)]
    ensures cfg.ttlValid && !saveResult ==> s.store == store && s.logs == []
    ensures s.ok ==> s.logs == (if cfg.loggerPresent then [Logged(Info, SAVED_TO_CACHE, UriContext(req.uri))] else [])
  {
    var key := CacheKey(cfg.digest, req);
    if !cfg.ttlValid then
      Saved(false, store, if cfg.loggerPresent then [CaughtException(InvalidTtl)] else [])
    else if saveResult then
      Saved(true, store[key := ToEntry(resp)],
            if cfg.loggerPresent then [Logged(Info, SAVED_TO_CACHE, UriContext(req.uri))] else [])
    else
      Saved(false, store, [])
  }

  /** One call of the middleware's closure. */
  function Handle(cfg: Config, req: Request, opts: Options, store: Store, inner: Handler, saveResult: bool): (s: Step)
    // The `cache` option never reaches the next handler.
    ensures s.InnerCalled() ==> s.forwarded.value == opts - {CACHE_OPTION}
    ensures s.InnerCalled() ==> CACHE_OPTION !in s.forwarded.value
    // The store only ever gains or replaces the entry under this request's key.
    ensures forall k | k in store :: k in s.store && (k != CacheKey(cfg.digest, req) ==> s.store[k] == store[k])
    ensures forall k | k in s.store :: k in store || k == CacheKey(cfg.digest, req)
    // Without a logger nothing is logged.
    ensures !cfg.loggerPresent ==> s.logs == []
  {
    var forwarded := opts - {CACHE_OPTION};
    if !CacheEnabled(opts) then
      Step(inner(req, forwarded), store, [], Some(forwarded))
    else
      var key := CacheKey(cfg.digest, req);
      if key !in store then
        match inner(req, forwarded)
        case Fail(e) => Step(Fail(e), store, [], Some(forwarded))
        case Ok(resp) =>
          var saved := SaveToCache(cfg, req, resp, store, saveResult);
          if saved.ok then
            var (marked, headerLogs) := AddDebugHeader(cfg, resp, DEBUG_HEADER_MISS);
            Step(Ok(marked), saved.store, saved.logs + headerLogs, Some(forwarded))
          else
            Step(Ok(resp), saved.store, saved.logs, Some(forwarded))
      else
        var hitLogs := if cfg.loggerPresent then [Logged(Info, TAKEN_FROM_CACHE, UriContext(req.uri))] else [];
        var (marked, headerLogs) := AddDebugHeader(cfg, Rebuild(cfg.phrases, store[key]), DEBUG_HEADER_HIT);
        Step(Ok(marked), store, hitLogs + headerLogs, None)
  }

  /** A falsy `cache` option: one call through with the option removed, nothing read, written or logged. */
  lemma BypassPassesThrough(cfg: Config, req: Request, opts: Options, store: Store, inner: Handler, saveResult: bool)
    requires !CacheEnabled(opts)
    ensures var s := Handle(cfg, req, opts, store, inner, saveResult);
      && s.forwarded == Some(opts - {CACHE_OPTION})
      && s.outcome == inner(req, opts - {CACHE_OPTION})
      && s.store == store
      && s.logs == []
  {
  }

  /**
   * A hit never calls the next handler: the response is rebuilt from the
   * stored fields, carries `X-Guzzle-Cache: HIT` in debug mode and is exactly
   * the rebuilt response otherwise.
   */
  lemma HitServesStoredEntry(cfg: Config, req: Request, opts: Options, store: Store, inner: Handler, saveResult: bool)
    requires CacheEnabled(opts) && CacheKey(cfg.digest, req) in store
    ensures var s := Handle(cfg, req, opts, store, inner, saveResult);
      var rebuilt := Rebuild(cfg.phrases, store[CacheKey(cfg.digest, req)]);
      && !s.InnerCalled()
      && s.store == store
      && s.outcome.Ok?
      && (cfg.debug ==> s.outcome.response == rebuilt.(headers := WithHeader(rebuilt.headers, DEBUG_HEADER, [DEBUG_HEADER_HIT])))
      && (cfg.debug ==> GetHeader(s.outcome.response.headers, DEBUG_HEADER) == [DEBUG_HEADER_HIT])
      && (!cfg.debug ==> s.outcome.response == rebuilt)
      && s.logs == (if cfg.loggerPresent then [Logged(Info, TAKEN_FROM_CACHE, UriContext(req.uri))] else [])
  {
  }

  /** A miss whose inner call fails passes the failure on and stores nothing. */
  lemma MissFailureNotCached(cfg: Config, req: Request, opts: Options, store: Store, inner: Handler, saveResult: bool)
    requires CacheEnabled(opts) && CacheKey(cfg.digest, req) !in store
    requires inner(req, opts - {CACHE_OPTION}).Fail?
    ensures var s := Handle(cfg, req, opts, store, inner, saveResult);
      && s.forwarded == Some(opts - {CACHE_OPTION})
      && s.outcome == inner(req, opts - {CACHE_OPTION})
      && s.store == store
      && s.logs == []
  {
  }

  /**
   * A miss with a response stores its five fields (taken before any marker)
   * under the lookup key exactly when the TTL is accepted and the pool saves
   * the item; the MISS marker is added only then and only in debug mode. With
   * a logger, a successful save logs the info event, an invalid TTL the error,
   * and a declined save nothing.
   */
  lemma MissResponseSaved(cfg: Config, req: Request, opts: Options, store: Store, inner: Handler, saveResult: bool)
    requires CacheEnabled(opts) && CacheKey(cfg.digest, req) !in store
    requires inner(req, opts - {CACHE_OPTION}).Ok?
    ensures var s := Handle(cfg, req, opts, store, inner, saveResult);
      var r := inner(req, opts - {CACHE_OPTION}).response;
      var saved := cfg.ttlValid && saveResult;
      && s.forwarded == Some(opts - {CACHE_OPTION})
      && s.store == (if saved then store[CacheKey(cfg.digest, req) := ToEntry(r)] else store)
      && s.outcome == Ok(if saved && cfg.debug then r.(headers := WithHeader(r.headers, DEBUG_HEADER, [DEBUG_HEADER_MISS])) else r)
      && s.logs == (if !cfg.loggerPresent then []
                    else if !cfg.ttlValid then [CaughtException(InvalidTtl)]
                    else if saveResult then [Logged(Info, SAVED_TO_CACHE, UriContext(req.uri))]
                    else [])
  {
  }

  /** An invalid TTL is caught: one error event (with a logger), nothing stored, the response still returned. */
  lemma InvalidTtlAbsorbed(cfg: Config, req: Request, opts: Options, store: Store, inner: Handler, saveResult: bool)
    requires !cfg.ttlValid
    requires CacheEnabled(opts) && CacheKey(cfg.digest, req) !in store
    requires inner(req, opts - {CACHE_OPTION}).Ok?
    ensures var s := Handle(cfg, req, opts, store, inner, saveResult);
      && s.outcome == inner(req, opts - {CACHE_OPTION})
      && s.store == store
      && s.logs == (if cfg.loggerPresent then [CaughtException(InvalidTtl)] else [])
  {
  }

  /** The four request fields the key is computed from. */
  predicate SameKeyFields(a: Request, b: Request) {
    a.body == b.body && a.headers == b.headers && a.httpMethod == b.httpMethod && a.uri == b.uri
  }

  ghost predicate Injective(digest: string -> string) {
    forall a, b :: digest(a) == digest(b) ==> a == b
  }

  /**
   * Requests that agree on body, headers, method and URI get the same key
   * whatever the digest; with a collision-free digest, only they do.
   */
  lemma CacheKeyIdentifiesRequest(digest: string -> string, a: Request, b: Request)
    ensures SameKeyFields(a, b) ==> CacheKey(digest, a) == CacheKey(digest, b)
    ensures Injective(digest) && CacheKey(digest, a) == CacheKey(digest, b) ==> SameKeyFields(a, b)
  {
    var pa := PhpSerialize.KeyFields(a.body, a.headers, a.httpMethod, a.uri);
    var pb := PhpSerialize.KeyFields(b.body, b.headers, b.httpMethod, b.uri);
    PhpSerialize.KeyFieldsInjective(a.body, a.headers, a.httpMethod, a.uri, b.body, b.headers, b.httpMethod, b.uri);
    if Injective(digest) && CacheKey(digest, a) == CacheKey(digest, b) {
      PhpSerialize.SplitEqual(CACHE_KEY_PREFIX + "|", digest(pa), CACHE_KEY_PREFIX + "|", digest(pb));
    }
  }

  /**
   * Round trip: a response stored on a miss and served to a later request
   * with the same key fields comes back with the same status, headers, body,
   * version and reason (ignoring the debug marker), without a call to the
   * next handler.
   */
  lemma MissThenHitRoundTrip(cfg: Config, req: Request, opts: Options, store: Store, inner: Handler,
                             later: Request, laterOpts: Options, laterInner: Handler, laterSave: bool)
    requires cfg.ttlValid
    requires CacheEnabled(opts) && CacheKey(cfg.digest, req) !in store
    requires inner(req, opts - {CACHE_OPTION}).Ok?
    requires WellFormed(cfg.phrases, inner(req, opts - {CACHE_OPTION}).response)
    requires CacheEnabled(laterOpts) && SameKeyFields(req, later)
    ensures var r := inner(req, opts - {CACHE_OPTION}).response;
      var first := Handle(cfg, req, opts, store, inner, true);
      var second := Handle(cfg, later, laterOpts, first.store, laterInner, laterSave);
      && !second.InnerCalled()
      && second.outcome.Ok?
      && second.outcome.response.status == r.status
      && second.outcome.response.body == r.body
      && second.outcome.response.version == r.version
      && second.outcome.response.reason == r.reason
      && WithoutHeader(second.outcome.response.headers, DEBUG_HEADER) == WithoutHeader(r.headers, DEBUG_HEADER)
      && (!cfg.debug ==> second.outcome == Ok(r))
  {
    var r := inner(req, opts - {CACHE_OPTION}).response;
    var key := CacheKey(cfg.digest, req);
    var first := Handle(cfg, req, opts, store, inner, true);
    MissResponseSaved(cfg, req, opts, store, inner, true);
    assert first.store == store[key := ToEntry(r)];
    CacheKeyIdentifiesRequest(cfg.digest, req, later);
    assert CacheKey(cfg.digest, later) == key;
    NewResponseRoundTrip(cfg.phrases, r);
    assert Rebuild(cfg.phrases, first.store[key]) == r;
    HitServesStoredEntry(cfg, later, laterOpts, first.store, laterInner, laterSave);
  }

  /**
   * Why the round trip asks for a well-formed response: a stored empty
   * reason phrase comes back as the standard phrase for its status.
   */
  lemma EmptyReasonComesBackAsPhrase(phrases: map<int, string>, e: Entry)
    requires e.reason == "" && e.status in phrases
    ensures Rebuild(phrases, e).reason == phrases[e.status]
  {
  }
}

=== FILE: user_agent.dfy ===
/**
 * UserAgentMiddleware: pick one string of the configured pool and set it as
 * the `User-Agent` header. The pick (`array_rand`) is an index oracle.
 */
module UserAgent {
  import opened Http

  const USER_AGENT_HEADER: string := "User-Agent"

  type Handler = Request -> Outcome

  /** The request with `User-Agent` set to `pool[pick]`, replacing any earlier value. */
  function SetUserAgent(pool: seq<string>, pick: nat, req: Request): (r: Request)
    requires pick < |pool|
    ensures r.httpMethod == req.httpMethod && r.uri == req.uri && r.body == req.body
    ensures forall n | SameName(n, USER_AGENT_HEADER) :: GetHeader(r.headers, n) == [pool[pick]] && pool[pick] in pool
    ensures forall n | !SameName(n, USER_AGENT_HEADER) :: GetHeader(r.headers, n) == GetHeader(req.headers, n)
    ensures WithoutHeader(r.headers, USER_AGENT_HEADER) == WithoutHeader(req.headers, USER_AGENT_HEADER)
    ensures forall i | 0 <= i < |r.headers| - 1 :: !SameName(r.headers[i].name, USER_AGENT_HEADER)
    ensures Normalized(req.headers) ==> Normalized(r.headers)
  {
    WithHeaderLookups(req.headers, USER_AGENT_HEADER, [pool[pick]]);
    WithHeaderShape(req.headers, USER_AGENT_HEADER, [pool[pick]]);
    WithHeaderNormalized(req.headers, USER_AGENT_HEADER, [pool[pick]]);
    req.(headers := WithHeader(req.headers, USER_AGENT_HEADER, [pool[pick]]))
  }

  /** What a handler returns: the closure as written returns a request where an outcome is expected. */
  datatype Returned = ReturnedRequest(request: Request) | ReturnedOutcome(outcome: Outcome)

  /**
   * The closure as written: it ignores `handler` and returns the rewritten
   * request itself, so the request never reaches the transport.
   */
  function InvokeAsWritten(pool: seq<string>, pick: nat, handler: Handler, req: Request): (r: Returned)
    requires pick < |pool|
    ensures r.ReturnedRequest?
    ensures r.request == SetUserAgent(pool, pick, req)
  {
    ReturnedRequest(SetUserAgent(pool, pick, req))
  }

  /** Whatever the handler would answer, the closure as written answers with no response at all. */
  lemma AsWrittenNeverCallsHandler(pool: seq<string>, pick: nat, h1: Handler, h2: Handler, req: Request)
    requires pick < |pool|
    ensures InvokeAsWritten(pool, pick, h1, req) == InvokeAsWritten(pool, pick, h2, req)
    ensures InvokeAsWritten(pool, pick, h1, req) != ReturnedOutcome(h1(SetUserAgent(pool, pick, req)))
  {
  }

  /** The evidently intended closure: pass the rewritten request on to the next handler. */
  function Invoke(pool: seq<string>, pick: nat, handler: Handler, req: Request): (r: Returned)
    requires pick < |pool|
    ensures r.ReturnedOutcome?
    ensures exists sent: Request ::
      (&& r.outcome == handler(sent)
       && sent.httpMethod == req.httpMethod && sent.uri == req.uri && sent.body == req.body
       && GetHeader(sent.headers, USER_AGENT_HEADER) == [pool[pick]]
       && WithoutHeader(sent.headers, USER_AGENT_HEADER) == WithoutHeader(req.headers, USER_AGENT_HEADER))
  {
    var sent := SetUserAgent(pool, pick, req);
    assert SameName(USER_AGENT_HEADER, USER_AGENT_HEADER);
    ReturnedOutcome(handler(sent))
  }
}

=== FILE: wrappers.dfy ===
/** Optional values and results shared by the middleware models. */
module Wrappers {

  /** A value that may be absent: PHP's `null` or an unset array key. */
  datatype Option<+T> = None | Some(value: T)

  /** A computed value, or the error PHP raised instead. */
  datatype Result<+T, +E> = Success(value: T) | Failure(error: E)
}
